=== FILE: README.md ===
# Practice-track score transformer — Dafny model

A model of the score-transformation core of `convert.rb`, the script that
turns a MuseScore archive into a master mix plus, for every sung part, a
"solo" practice track and a "dominant" practice track.

The model covers three things:

- **The `Part` accessor layer.** A part's `Instrument/Channel` element is a
  sequence of child elements (`ChannelTree`). A query (`mute`, `solo`,
  `controller[@ctrl=n]`) selects children. `First`/`Lookup` give the first
  selected child, which is what `at_xpath` returns. `Put` replaces that child
  or appends one on first write. `Remove` deletes it.
  `PartModel` builds the source's readers and writers on these:
  `muted?`, `mute!`, `unmute!`, `solo?`, `solo!`, `unsolo!`, `volume`,
  `volume=`, `pan`, `pan=`, `vocal?`, `empty?` and `name`.
  Pan uses exact reals (`PanCodec`): it is written as `floor(v*63+64)` and read
  as `max(-1, (s-64)/63)`.
- **The two mix policies** (`MixPolicy`). Both end with the same step on the
  target (`Feature`: `unmute!`, set the pan, volume 110). Every accessor and
  both policies keep the children no mixer query selects (`NonMixer`), such as
  other controllers, in order. Each is a function of the ordered
  part list and a target index. Every step of either policy touches one part
  only. So the Ruby loops are modelled as one per-part function applied at
  every index.
- **The driver's pure logic** (`Driver`). It picks the ascending indices of
  parts that are vocal and not empty. It sanitises names with `gsub(/\W/, '_')`.
  It plans a solo track and then a dominant track per picked index.

Errors are `Result` values (`Wrappers`). A range error from `volume=` or
`pan=`, or a missing `trackName`, returns `Err` and changes nothing. This
matches the source, which raises before it touches the document. The policies
call the storing halves `StoreVolume`/`StorePan`, whose argument types
(`MidiValue`, `PanValue`) already carry the range check. So the policies'
totality is checked statically.

A channel is *well formed* (`WellFormed`) when each query selects at most one
child. This is the assumption under which the flag writers behave as their names promise. Every writer preserves it.
`unmute!` and `unsolo!` remove only the first matching child. So "after
`unmute!` the part is unmuted" holds only for a channel with at most one
`mute` child. `UnmuteLeavesSecondMute` gives a concrete channel where it fails.

Three behaviours of the code worth knowing:

- `unmute!` on a part whose `mute` child reads `"0"` is not a no-op. The
  part already reads as unmuted, but the child is still deleted
  (`UnmuteOfZeroMute`).
- `vocal?` uses Ruby's `^`, which is anchored at every line start. Any line of
  the instrument id that starts with `voice.` counts, not only a prefix of
  the whole string.
- A missing track name raises out of the driver loop. This stops the
  remaining derived tracks rather than only the current one. `PlanFor` keeps
  the tracks planned before the failure and records the error.

## Model

| member | source | states |
|---|---|---|
| ChannelTree.First | convert.rb:22 | `at_xpath` position: the returned child matches and none before it does; `None` exactly when no child matches |
| ChannelTree.Lookup | convert.rb:72 | the child `at_xpath` returns is the head of everything the query selects |
| ChannelTree.Put | convert.rb:27-32 | create on first write, update in place afterwards: without a selected child the result is the channel with `e` appended; otherwise the first selected child, at the same position, becomes `e` and every other position is unchanged; the selection becomes `e` followed by the later selected children; no other query's answer changes; at-most-one-per-query is preserved; a lookup then returns `e` |
| ChannelTree.Remove | convert.rb:38-41 | deletes exactly the first selected child: the children before it keep their positions and every later child moves up by one; other queries are untouched; with at most one selected child a later lookup finds nothing; without one the channel is unchanged |
| ChannelTree.PutTwice | convert.rb:26-35 | writing the same child twice leaves the channel as writing it once |
| PanCodec.Encode | convert.rb:103 | the stored value of pan `v` in [-1, 1] lies in [1, 127] and is the floor of `63v + 64` |
| PanCodec.Decode | convert.rb:90-91 | a read pan is at least -1; it is -1 exactly for stored values at most 1; it is at most 1 for stored values at most 127 |
| PanCodec.EncodeThenDecode | convert.rb:91-103 | reading back a written pan `p` gives a value in `(p - 1/63, p]` |
| PanCodec.ExactPositions | convert.rb:91-103 | pans -1, 0 and 1 are stored as 1, 64 and 127 and read back exactly |
| PanCodec.DecodeThenEncode | convert.rb:91-103 | for stored values 1..127, writing back the pan read from them reproduces them |
| PanCodec.StoredZeroIsNotRecovered | convert.rb:91 | stored 0 and stored 1 both read as -1, and writing that back stores 1 |
| PartModel.Muted | convert.rb:21-24 | muted exactly when the first `mute` child exists and its text is not `"0"` |
| PartModel.Mute | convert.rb:26-35 | the part reads muted and every other mixer read is unchanged; its `mute` children become `"1"` followed by the old ones after the first; children of other kinds, and all non-mixer children, are unchanged |
| PartModel.Unmute | convert.rb:37-44 | removes only the first `mute` child; the other mixer reads are unchanged; with at most one `mute` child the part reads unmuted; without one the part is unchanged |
| PartModel.Soloed | convert.rb:46-49 | soloed exactly when the first `solo` child exists and its text is not `"0"` |
| PartModel.Solo | convert.rb:51-60 | the part reads soloed and every other mixer read is unchanged; its `solo` children become `"1"` followed by the old ones after the first; all non-mixer children are unchanged |
| PartModel.Unsolo | convert.rb:62-69 | removes only the first `solo` child; the other mixer reads are unchanged; with at most one `solo` child the part reads unsoloed; without one the part is unchanged |
| PartModel.Volume | convert.rb:71-74 | the value of the first ctrl-7 controller in document order, or 100 when there is none |
| PartModel.StoreVolume | convert.rb:79-85 | volume then reads `v` and nothing else the mixer reads changes; the ctrl-7 controllers become one of value `v` followed by the old ones after the first; other children, and all non-mixer children, are unchanged |
| PartModel.SetVolume | convert.rb:76-86 | fails with `InvalidVolume` exactly when `v < 0` or `v > 127`; otherwise volume reads `v`, nothing else the mixer reads changes, and the result is the storing half `StoreVolume` |
| PartModel.Pan | convert.rb:88-92 | the read pan is `max(-1, (s-64)/63)` for the first ctrl-10 value `s`, and 0.0 (stored centre 64) with no such controller; it is at least -1; a stored value 1..127 is recovered by re-encoding the read |
| PartModel.StorePan | convert.rb:97-103 | pan then reads a value in `(v - 1/63, v]`, exactly `v` for -1, 0 and 1; no other mixer read changes; the first ctrl-10 controller holds `Encode(v)`; all non-mixer children are unchanged |
| PartModel.SetPan | convert.rb:94-104 | fails with `InvalidPan` exactly when `v < -1` or `v > 1`; otherwise the read pan lies in `(v - 1/63, v]` and the result is the storing half `StorePan`, so -1, 0 and 1 read back exactly |
| PartModel.MuteTwice | convert.rb:26-35 | `mute!` is idempotent |
| PartModel.SoloTwice | convert.rb:51-60 | `solo!` is idempotent |
| PartModel.UnmuteTwice | convert.rb:37-44 | `unmute!` is idempotent on a channel with at most one `mute` child |
| PartModel.UnsoloTwice | convert.rb:62-69 | `unsolo!` is idempotent on a channel with at most one `solo` child |
| PartModel.UnmuteLeavesSecondMute | convert.rb:37-44 | with two `mute` children the part still reads muted after `unmute!` |
| PartModel.UnmuteOfZeroMute | convert.rb:37-44 | a lone `mute` child reading `"0"` is not a mute, yet `unmute!` deletes it: the part changes while every read stays the same |
| PartModel.VoiceLineFromIff | convert.rb:109 | the character scan finds `voice.` at a line start exactly when some line of the id begins with `voice.` |
| PartModel.IsVocal | convert.rb:106-110 | vocal exactly when the instrument id is present and some line of it starts with `voice.`; no id means not vocal |
| PartModel.OwnedStaves | convert.rb:113-114 | a staff is kept exactly when it is a score staff whose id is one of the part's staff ids |
| PartModel.IsEmpty | convert.rb:112-117 | empty exactly when no score staff whose id belongs to the part holds a note; vacuously true when it owns none |
| PartModel.Name | convert.rb:119-121 | succeeds exactly when the part has a track name, returning it; otherwise `MissingTrackName` |
| PartModel.NonMixerThroughOthers | convert.rb:26-104 | dropping the children of one mixer query (`mute`, `solo`, ctrl 7, ctrl 10) leaves the non-mixer children as they were |
| PartModel.NonMixerDecidesSelect | convert.rb:26-104 | two channels with the same non-mixer children give the same answer to every query outside the mixer's |
| MixPolicy.SoloBacking | convert.rb:168 | a part after `mute!.unsolo!.volume = 0` reads muted, volume 0 and its old pan; its `mute` children become `<mute>1</mute>` followed by the old ones after the first, the first `solo` child is gone, and its ctrl-10 controllers are exactly as before; it reads unsoloed when it had at most one `solo` child; its non-mixer children and every non-mixer query's answer are unchanged |
| MixPolicy.Feature | convert.rb:193-194 | `unmute!`, `pan = x`, `volume = 110`, the last step of both policies (also convert.rb:170-171): the part reads volume 110, its `solo` children are exactly as before, it reads pan exactly `x` for -1, 0 and 1, reads unmuted when it had at most one `mute` child, and keeps its non-mixer children |
| MixPolicy.SoloTarget | convert.rb:170-171 | the target reads soloed, volume 110 and pan 0, its first `solo` child is `<solo>1</solo>` and the rest are the old ones after the first two (one dropped by `unsolo!`, one overwritten by `solo!`); it reads unmuted when it had at most one `mute` child; its non-mixer children and every non-mixer query's answer are unchanged |
| MixPolicy.SoloMix | convert.rb:157-172 | every non-target part ends muted with volume 0, its first `mute` child written as `<mute>1</mute>` and the rest kept, its ctrl-10 controllers (so its pan) unchanged, and unsoloed if well formed; the target ends with `<solo>1</solo>` as its first `solo` child, soloed, centred and at volume 110, and unmuted if well formed; only channels change, and in every channel only mixer children change; well-formedness is preserved |
| MixPolicy.SoloMixBacking | convert.rb:168 | the per-part solo facts, including the written `<mute>1</mute>`, hold at every non-target index of the list |
| MixPolicy.SoloMixTarget | convert.rb:170-171 | the per-part solo facts, including the written `<solo>1</solo>`, hold at the target index |
| MixPolicy.DominantBacking | convert.rb:182-192 | a non-target part reads full left, volume 50 if vocal and 40 otherwise; its first ctrl-10 controller stores 1 (the encoding of -1) with the later ones kept, and its `mute` children are exactly as before; it reads unsoloed when it had at most one `solo` child; its non-mixer children are unchanged |
| MixPolicy.DominantTarget | convert.rb:193-194 | the target reads full right and volume 110; it reads unmuted and unsoloed when its channel had at most one such child; its non-mixer children are unchanged |
| MixPolicy.DominantMix | convert.rb:175-196 | every non-target part ends at pan -1 with stored ctrl-10 value 1 in its first pan controller, volume 50 (vocal) or 40 (other), with its `mute` children exactly as before; every well-formed part ends unsoloed; the target ends at pan 1 and volume 110, unmuted if well formed; only channels change, and in every channel only mixer children change |
| MixPolicy.DominantMixFrame | convert.rb:175-196 | the dominant policy changes only channels, keeps well-formedness, and in every channel keeps the non-mixer children and every non-mixer query's answer |
| MixPolicy.DominantMixBacking | convert.rb:182-192 | the per-part dominant reads and the stored pan 1 hold at every non-target index of the list, and every well-formed part ends unsoloed |
| MixPolicy.DominantMixTarget | convert.rb:193-194 | the per-part dominant facts hold at the target index |
| MixPolicy.MixesKeepWellFormed | convert.rb:157-196 | both policies map a well-formed channel at any index to a well-formed channel |
| Driver.IndicesFrom | convert.rb:207 | the positions from `k` on where the per-part flag holds: each listed position is flagged, they strictly ascend, and none is missed |
| Driver.VocalIndices | convert.rb:207 | an index is listed exactly when its part is vocal and not empty; the list strictly ascends |
| Driver.Sanitize | convert.rb:209 | `gsub(/\W/, '_')`: same length; every output character is in `[A-Za-z0-9_]`; word characters are kept in place; every other character becomes `_` |
| Driver.SanitizeTwice | convert.rb:209 | sanitising twice is sanitising once |
| Driver.SanitizeFixedPoints | convert.rb:209 | a name is unchanged by sanitising exactly when all its characters are word characters |
| Driver.SanitizeCanCollide | convert.rb:209-210 | different names (`Alto 1`, `Alto-1`) can give the same file name component |
| Driver.OutputFile | convert.rb:209 | the output path starts with the score path stem, and the part-name component holds only word characters |
| Driver.OutputFileLayout | convert.rb:209-210 | the output path is the stem, a dash, the sanitised name and then `-solo.mp3` or `-dominant.mp3` |
| Driver.OutputFileDistinct | convert.rb:209-210 | two tracks of one score get the same output file exactly when they are of the same kind and their names sanitise alike |
| Driver.PlanFor | convert.rb:208-211 | pair `m` of the plan is the solo and dominant track of the `m`-th index, under that part's name; the plan fails exactly when some listed part has no name, and then it stops at the first such part with the earlier pairs kept |
| Driver.PlanShift | convert.rb:208-211 | a pair put before a plan for the remaining indices sits at position 0 and moves every later pair one position on, matching the indices |
| Driver.DerivedTracks | convert.rb:205-211 | pair `m` of the derived tracks belongs to the `m`-th vocal, non-empty part; without failure there is one pair per such part |
| Driver.DerivedPairPart | convert.rb:207-210 | both tracks of pair `m` are one solo and one dominant track of the same part, and that part is vocal and not empty |
| Driver.DerivedPairsAscend | convert.rb:207-210 | later pairs feature later parts |
| Driver.DerivedTracksComplete | convert.rb:207-210 | without failure, every vocal, non-empty part has a name and gets its pair of solo and dominant tracks |
| Driver.MixFor | convert.rb:209-210 | a derived track re-reads the score and applies its one policy, featuring its part: the part list keeps its length, only channels change, and every channel keeps its non-mixer children |
| Driver.DerivedTrackMixes | convert.rb:208-210 | the solo track of pair `m` renders the solo mix of the `m`-th selected part, and the dominant track the dominant mix of the same part |
| Driver.FeaturedIsLoudest | convert.rb:157-196 | in the mix a track renders, the featured part is at volume 110, louder than every other part, and placed centre (solo) or right (dominant) |
| Driver.SoloFeatured | convert.rb:168-171 | in the solo mix the target is at volume 110 and pan 0 and every other part at volume 0 |
| Driver.DominantFeatured | convert.rb:182-194 | in the dominant mix the target is at volume 110 and pan 1 and every other part at volume 50 or less |
| Driver.NoneFlagged | convert.rb:207 | with no flag set from `k` on, the selection from `k` is empty |
| Driver.SoleFlag | convert.rb:207 | with exactly one flag set, at or after `k`, the selection from `k` is that one position |
| Driver.SoleSelection | convert.rb:207 | when exactly one part is vocal and not empty, it alone is selected |
| Driver.PianoIsNotVocal | convert.rb:106-110 | an instrument id `piano` has no line starting with `voice.` |
| Driver.SopranoIsSelected | convert.rb:207 | a `voice.soprano` part owning a staff with notes is vocal and not empty |
| Driver.AltoIsEmpty | convert.rb:112-117 | a part whose only staff holds no note is empty |
| Driver.ChoirScenario | convert.rb:205-207 | a piano, a soprano with notes and an empty alto: only the soprano is selected |
| Driver.PlanForOne | convert.rb:208-211 | a plan for one named part is its single pair, without failure |
| Driver.ChoirTracks | convert.rb:205-211 | the choir score yields exactly one pair, the soprano's solo and dominant tracks, and no failure |

## Left out

- `convert` (convert.rb:124-133) runs the score-to-MIDI and MIDI-to-MP3 tools and deletes a file. This is external process I/O.
- `create_modified_track` (convert.rb:135-155) copies to a temp file, opens the zip, and parses and re-serialises the XML. The model works on the abstract document that results. Each derived track's mix is applied to the original parts (`MixFor`), as the source re-reads the archive per track.
- The archive glob loop and the master-track conversion (convert.rb:200-204, 213) are filesystem batch I/O. Only the selection and naming on lines 205-211 are modelled. The score path is given as its stem, without the extension that `sub_ext` replaces.
- `Part.create_all` (convert.rb:9-11) only collects the `//Score/Part` elements. In the model that collection is the `parts` field of `Score`.
- `channel` (convert.rb:17-19): a part holds the children of its first `Instrument/Channel` directly. A part with no channel raises `NoMethodError` in the source; that case is not modelled.
- Attribute text: `ctrl` and `value` are kept as the integers XPath and `to_i` read from them. Non-numeric text, a missing `value` attribute and spellings such as `07` are not modelled.
- All parts are children of one `Score` element, whose `Staff` children are `staves`. `empty?` reads the `Staff` children of the part's own parent element (convert.rb:114), and `create_all` collects parts under every `Score` element (convert.rb:10); a document with several `Score` elements is not modelled.
- Staff ids are always present strings. A `Staff` without an `id` attribute is not modelled. The `.//Note` descendant search is the `hasNote` flag.
- Volume arguments are integers. The commented-out fractional scaling (convert.rb:185, 190) and `to_i` truncation of non-integer arguments are not modelled.
- Pan arithmetic uses exact reals, not floats. The policies only write -1, 0 and 1, where both agree.
- The policies require the target index to be in range `0..|parts|-1`. The driver only passes indices from `each_index`. Ruby would also accept a negative index, counted from the end of the list (convert.rb:160, 178); only an index outside `-|parts|..|parts|-1` gives `nil` and crashes.
- Track titles and audio tags do not appear in this source and are not modelled.
- PartModel.Unmute: the postcondition that the part reads unmuted is stated only for channels with at most one `mute` child. The code removes only the first child, so the stronger claim is false in general.
- PartModel.Unsolo: the same restriction to at most one `solo` child, for the same reason.

=== FILE: channel.dfy ===
/**
 * The `Instrument/Channel` element of a part, seen as the ordered list of its
 * child elements, and the three tree operations the part accessors are built
 * from: find the first child an XPath step selects (`at_xpath`), replace that
 * child or append a new one (`channel << el` on first write), and remove it.
 */
module ChannelTree {
  import opened Wrappers

  /** One child element of a channel. Controller attributes are kept as the
      integers the source reads from them (XPath compares `@ctrl` numerically,
      `to_i` reads `value`). */
  datatype Elem =
    | MuteElem(text: string)
    | SoloElem(text: string)
    | ControllerElem(ctrl: int, value: int)
    | OtherElem(payload: string)

  type Channel = seq<Elem>

  /** The XPath steps used on a channel: `mute`, `solo`, `controller[@ctrl=n]`. */
  datatype Query = MuteQ | SoloQ | ControllerQ(number: int)

  predicate Matches(e: Elem, q: Query)
  {
    match q
    case MuteQ => e.MuteElem?
    case SoloQ => e.SoloElem?
    case ControllerQ(n) => e.ControllerElem? && e.ctrl == n
  }

  /** Every child the query selects, in document order (`xpath`). */
  function Select(ch: Channel, q: Query): (r: seq<Elem>)
    ensures forall k :: 0 <= k < |r| ==> Matches(r[k], q)
  {
    if |ch| == 0 then []
    else (if Matches(ch[0], q) then [ch[0]] else []) + Select(ch[1..], q)
  }

  /** Every child the query does not select, in document order. */
  function Others(ch: Channel, q: Query): seq<Elem>
  {
    if |ch| == 0 then []
    else (if Matches(ch[0], q) then [] else [ch[0]]) + Others(ch[1..], q)
  }

  /** At most one child answers the query. */
  predicate Single(ch: Channel, q: Query)
  {
    |Select(ch, q)| <= 1
  }

  /** At most one child per query: the assumption under which the flag
      writers behave as their names promise. */
  ghost predicate WellFormed(ch: Channel)
  {
    forall q :: Single(ch, q)
  }

  /** Position of the first child the query selects (`at_xpath`). */
  function First(ch: Channel, q: Query): (r: Option<nat>)
    ensures r.Some? ==> r.value < |ch| && Matches(ch[r.value], q)
    ensures r.Some? ==> forall j :: 0 <= j < r.value ==> !Matches(ch[j], q)
    ensures r.None? ==> forall j :: 0 <= j < |ch| ==> !Matches(ch[j], q)
  {
    if |ch| == 0 then None
    else if Matches(ch[0], q) then Some(0)
    else match First(ch[1..], q)
      case None => None
      case Some(k) => Some(k + 1)
  }

  /** The first child the query selects, which is the head of `Select`. */
  function Lookup(ch: Channel, q: Query): (r: Option<Elem>)
    ensures r.Some? ==> Matches(r.value, q)
    ensures r == Head(Select(ch, q))
  {
    match First(ch, q)
    case None => NoneSelected(ch, q); None
    case Some(k) => SplitAtFirst(ch, q, k); Some(ch[k])
  }

  /** Set the first selected child to `e`, or append `e` when there is none:
      the create-on-first-write, update-in-place-afterwards pattern. */
  function Put(ch: Channel, q: Query, e: Elem): (r: Channel)
    requires Matches(e, q)
    ensures Select(r, q) == [e] + Tail(Select(ch, q))
    ensures Others(r, q) == Others(ch, q)
    ensures forall q' :: q' != q ==> Select(r, q') == Select(ch, q')
    ensures forall q' :: Single(ch, q') ==> Single(r, q')
    ensures Lookup(r, q) == Some(e)
    ensures First(ch, q).None? ==> r == ch + [e]
    ensures First(ch, q).Some? ==>
              && |r| == |ch|
              && First(r, q) == First(ch, q)
              && forall j :: 0 <= j < |ch| && j != First(ch, q).value ==> r[j] == ch[j]
  {
    match First(ch, q)
    case None =>
      PutAppends(ch, q, e);
      OthersDecideSelect(ch + [e], ch, q);
      ch + [e]
    case Some(k) =>
      PutReplaces(ch, q, e, k);
      OthersDecideSelect(ch[k := e], ch, q);
      ch[k := e]
  }

  /** Without a selected child, appending `e` makes it the only one. */
  lemma PutAppends(ch: Channel, q: Query, e: Elem)
    requires Matches(e, q) && First(ch, q).None?
    ensures Select(ch, q) == []
    ensures Select(ch + [e], q) == [e]
    ensures Others(ch + [e], q) == Others(ch, q)
  {
    NoneSelected(ch, q);
    Concat(ch, [e], q);
    Singleton(e, q);
  }

  /** Replacing the first selected child keeps its place at the head of the selection. */
  lemma PutReplaces(ch: Channel, q: Query, e: Elem, k: nat)
    requires Matches(e, q) && First(ch, q) == Some(k)
    ensures Select(ch[k := e], q) == [e] + Tail(Select(ch, q))
    ensures Others(ch[k := e], q) == Others(ch, q)
    ensures First(ch[k := e], q) == Some(k)
  {
    SplitAtFirst(ch, q, k);
    var r := ch[k := e];
    assert r == ch[..k] + [e] + ch[k+1..];
    FirstAt(r, q, k);
    SplitAtFirst(r, q, k);
    assert r[..k] == ch[..k] && r[k+1..] == ch[k+1..];
  }

  /** Remove the first selected child, if any (`el.remove` after `at_xpath`). */
  function Remove(ch: Channel, q: Query): (r: Channel)
    ensures Select(r, q) == Tail(Select(ch, q))
    ensures Others(r, q) == Others(ch, q)
    ensures forall q' :: q' != q ==> Select(r, q') == Select(ch, q')
    ensures forall q' :: Single(ch, q') ==> Single(r, q')
    ensures Single(ch, q) ==> Lookup(r, q) == None
    ensures First(ch, q).None? ==> r == ch
    ensures First(ch, q).Some? ==> |r| == |ch| - 1
    ensures First(ch, q).Some? ==>
              forall j :: 0 <= j < |r| ==> r[j] == if j < First(ch, q).value then ch[j] else ch[j + 1]
  {
    match First(ch, q)
    case None => NoneSelected(ch, q); ch
    case Some(k) =>
      SplitAtFirst(ch, q, k);
      var r := ch[..k] + ch[k+1..];
      NoneSelected(ch[..k], q);
      Concat(ch[..k], ch[k+1..], q);
      OthersDecideSelect(r, ch, q);
      r
  }

  lemma Concat(a: Channel, b: Channel, q: Query)
    ensures Select(a + b, q) == Select(a, q) + Select(b, q)
    ensures Others(a + b, q) == Others(a, q) + Others(b, q)
  {
    SelectConcat(a, b, q);
    OthersConcat(a, b, q);
  }

  lemma {:induction false} SelectConcat(a: Channel, b: Channel, q: Query)
    ensures Select(a + b, q) == Select(a, q) + Select(b, q)
  {
    if |a| == 0 {
      assert a + b == b;
    } else {
      var h := if Matches(a[0], q) then [a[0]] else [];
      var ab := a + b;
      assert ab[0] == a[0];
      assert ab[1..] == a[1..] + b;
      assert Select(ab, q) == h + Select(ab[1..], q);
      SelectConcat(a[1..], b, q);
      assert Select(a, q) == h + Select(a[1..], q);
      assert Select(ab, q) == h + (Select(a[1..], q) + Select(b, q));
    }
  }

  lemma {:induction false} OthersConcat(a: Channel, b: Channel, q: Query)
    ensures Others(a + b, q) == Others(a, q) + Others(b, q)
  {
    if |a| == 0 {
      assert a + b == b;
    } else {
      var h := if Matches(a[0], q) then [] else [a[0]];
      var ab := a + b;
      assert ab[0] == a[0];
      assert ab[1..] == a[1..] + b;
      assert Others(ab, q) == h + Others(ab[1..], q);
      OthersConcat(a[1..], b, q);
      assert Others(a, q) == h + Others(a[1..], q);
      assert Others(ab, q) == h + (Others(a[1..], q) + Others(b, q));
    }
  }

  /** The selection from a single child. */
  lemma Singleton(e: Elem, q: Query)
    ensures Select([e], q) == (if Matches(e, q) then [e] else [])
    ensures Others([e], q) == (if Matches(e, q) then [] else [e])
  {
    assert [e][1..] == [];
  }

  lemma {:induction false} NoneSelected(ch: Channel, q: Query)
    requires forall j :: 0 <= j < |ch| ==> !Matches(ch[j], q)
    ensures Select(ch, q) == []
    ensures Others(ch, q) == ch
  {
    if |ch| > 0 {
      NoneSelected(ch[1..], q);
      assert ch == [ch[0]] + ch[1..];
    }
  }

  /** Splitting a channel at its first selected child. */
  lemma SplitAtFirst(ch: Channel, q: Query, k: nat)
    requires First(ch, q) == Some(k)
    ensures Select(ch, q) == [ch[k]] + Select(ch[k+1..], q)
    ensures Others(ch, q) == Others(ch[..k], q) + Others(ch[k+1..], q)
    ensures Others(ch[..k], q) == ch[..k]
  {
    var pre, rest := ch[..k], ch[k+1..];
    assert ch == pre + ([ch[k]] + rest);
    NoneSelected(pre, q);
    SplitSelect(pre, ch[k], rest, q);
    SplitOthers(pre, ch[k], rest, q);
  }

  lemma SplitSelect(pre: Channel, e: Elem, rest: Channel, q: Query)
    requires Select(pre, q) == [] && Matches(e, q)
    ensures Select(pre + ([e] + rest), q) == [e] + Select(rest, q)
  {
    SelectConcat(pre, [e] + rest, q);
    SelectConcat([e], rest, q);
    Singleton(e, q);
  }

  lemma SplitOthers(pre: Channel, e: Elem, rest: Channel, q: Query)
    requires Matches(e, q)
    ensures Others(pre + ([e] + rest), q) == Others(pre, q) + Others(rest, q)
  {
    OthersConcat(pre, [e] + rest, q);
    OthersConcat([e], rest, q);
    Singleton(e, q);
  }

  /** The first selected child is the one before which nothing is selected. */
  lemma FirstAt(ch: Channel, q: Query, k: nat)
    requires k < |ch| && Matches(ch[k], q)
    requires forall j :: 0 <= j < k ==> !Matches(ch[j], q)
    ensures First(ch, q) == Some(k)
  {
    var f := First(ch, q);
    assert f.Some?;
  }

  /** A child selected by `q` is never selected by another query `q'`. */
  lemma {:induction false} SelectThroughOthers(ch: Channel, q: Query, q': Query)
    requires q != q'
    ensures Select(ch, q') == Select(Others(ch, q), q')
  {
    if |ch| > 0 {
      SelectThroughOthers(ch[1..], q, q');
      var head := if Matches(ch[0], q) then [] else [ch[0]];
      Concat(head, Others(ch[1..], q), q');
      assert [ch[0]][1..] == [];
    }
  }

  /** Two channels with the same non-`q` children answer every other query alike. */
  lemma OthersDecideSelect(a: Channel, b: Channel, q: Query)
    requires Others(a, q) == Others(b, q)
    ensures forall q' :: q' != q ==> Select(a, q') == Select(b, q')
  {
    forall q' | q' != q
      ensures Select(a, q') == Select(b, q')
    {
      SelectThroughOthers(a, q, q');
      SelectThroughOthers(b, q, q');
    }
  }

  /** Writing the same child twice is writing it once. */
  lemma PutTwice(ch: Channel, q: Query, e: Elem)
    requires Matches(e, q)
    ensures Put(Put(ch, q, e), q, e) == Put(ch, q, e)
  {
    var r := Put(ch, q, e);
    match First(ch, q)
    case None =>
      assert r == ch + [e];
      FirstAt(r, q, |ch|);
    case Some(k) =>
      assert r == ch[k := e];
      FirstAt(r, q, k);
  }
}

=== FILE: driver.dfy ===
/**
 * The pure part of the batch driver: which parts get practice tracks, what
 * the output files are called, and which mix each derived track renders.
 * Reading the archive and running the renderers are not modelled.
 */
module Driver {
  import opened Wrappers
  import opened PartModel
  import opened MixPolicy

  /** A score: its parts in document order and its `Staff` elements. */
  datatype Score = Score(parts: seq<Part>, staves: seq<Staff>)

  /** A part gets practice tracks when it is a voice and has notes. */
  predicate Selected(score: Score, i: int)
    requires 0 <= i < |score.parts|
  {
    IsVocal(score.parts[i]) && !IsEmpty(score.parts[i], score.staves)
  }

  /** The positions from `k` on where `flags` holds, in ascending order. */
  function IndicesFrom(flags: seq<bool>, k: nat): (r: seq<nat>)
    ensures forall m :: 0 <= m < |r| ==> k <= r[m] < |flags| && flags[r[m]]
    ensures forall m, n :: 0 <= m < n < |r| ==> r[m] < r[n]
    ensures forall i :: k <= i < |flags| && flags[i] ==> i in r
    decreases |flags| - k
  {
    if k >= |flags| then []
    else
      var rest := IndicesFrom(flags, k + 1);
      if flags[k] then [k] + rest else rest
  }

  /** `parts.each_index.select { vocal? && not empty? }`: exactly the selected
      indices, ascending and without repeats. */
  function VocalIndices(score: Score): (r: seq<nat>)
    ensures forall m :: 0 <= m < |r| ==> r[m] < |score.parts| && Selected(score, r[m])
    ensures forall m, n :: 0 <= m < n < |r| ==> r[m] < r[n]
    ensures forall i :: 0 <= i < |score.parts| ==> (i in r <==> Selected(score, i))
  {
    var flags := seq(|score.parts|, i requires 0 <= i < |score.parts| => Selected(score, i));
    IndicesFrom(flags, 0)
  }

  // ---------------------------------------------------------------- file names

  /** Ruby's `\w` without the Unicode flag: ASCII letters, digits, underscore. */
  predicate IsWordChar(c: char)
  {
    ('a' <= c <= 'z') || ('A' <= c <= 'Z') || ('0' <= c <= '9') || c == '_'
  }

  /** `gsub(/\W/, '_')`: every non-word character becomes an underscore. */
  function Sanitize(name: string): (r: string)
    ensures |r| == |name|
    ensures forall k :: 0 <= k < |r| ==> IsWordChar(r[k])
    ensures forall k :: 0 <= k < |name| && IsWordChar(name[k]) ==> r[k] == name[k]
    ensures forall k :: 0 <= k < |name| && !IsWordChar(name[k]) ==> r[k] == '_'
  {
    if |name| == 0 then []
    else [if IsWordChar(name[0]) then name[0] else '_'] + Sanitize(name[1..])
  }

  /** Sanitising is idempotent. */
  lemma SanitizeTwice(name: string)
    ensures Sanitize(Sanitize(name)) == Sanitize(name)
  {
  }

  /** The names sanitising leaves alone are exactly the all-word-character ones. */
  lemma SanitizeFixedPoints(name: string)
    ensures Sanitize(name) == name <==> forall k :: 0 <= k < |name| ==> IsWordChar(name[k])
  {
    if Sanitize(name) == name {
      forall k | 0 <= k < |name| ensures IsWordChar(name[k]) {
        assert name[k] == Sanitize(name)[k];
      }
    }
  }

  /** Distinct part names can sanitise to the same file name component, so
      two selected parts can be given the same output files. */
  lemma SanitizeCanCollide()
    ensures Sanitize("Alto 1") == Sanitize("Alto-1") == "Alto_1"
  {
    assert !IsWordChar(' ') && !IsWordChar('-');
  }

  // ---------------------------------------------------------------- track plan

  datatype TrackKind = SoloTrack | DominantTrack

  /** A derived track: which part it features and where it is written. */
  datatype Track = Track(kind: TrackKind, part: nat, file: string)

  /** The two practice tracks of one part; the solo track is rendered first. */
  datatype PracticePair = PracticePair(solo: Track, dominant: Track)

  /** The pairs produced, in order, and the failure that stopped the loop early, if any. */
  datatype Plan = Plan(pairs: seq<PracticePair>, failure: Option<Error>)

  function Suffix(kind: TrackKind): string
  {
    match kind
    case SoloTrack => "-solo.mp3"
    case DominantTrack => "-dominant.mp3"
  }

  /** `sub_ext("-<name>-solo.mp3")` on the score path, given the path without
      its extension. */
  function OutputFile(stem: string, name: string, kind: TrackKind): (r: string)
    ensures |r| == |stem| + 1 + |name| + |Suffix(kind)|
    ensures r[..|stem|] == stem
    ensures forall k :: |stem| + 1 <= k < |stem| + 1 + |name| ==> IsWordChar(r[k])
  {
    stem + "-" + Sanitize(name) + Suffix(kind)
  }

  /** The output path is the stem, a dash, the sanitised name and the suffix
      of the track kind, in that order. */
  lemma OutputFileLayout(stem: string, name: string, kind: TrackKind)
    ensures var r := OutputFile(stem, name, kind);
            && r[|stem|] == '-'
            && r[|stem| + 1..|stem| + 1 + |name|] == Sanitize(name)
            && r[|stem| + 1 + |name|..] == Suffix(kind)
  {
  }

  /** Two tracks of one score share an output file exactly when they are of
      the same kind and their part names sanitise alike. */
  lemma OutputFileDistinct(stem: string, a: string, b: string, ka: TrackKind, kb: TrackKind)
    ensures OutputFile(stem, a, ka) == OutputFile(stem, b, kb)
        <==> ka == kb && Sanitize(a) == Sanitize(b)
  {
    var fa, fb := OutputFile(stem, a, ka), OutputFile(stem, b, kb);
    OutputFileLayout(stem, a, ka);
    OutputFileLayout(stem, b, kb);
    if ka != kb && |fa| == |fb| {
      // The suffixes differ in length, so the shorter name's suffix dash
      // faces a word character of the longer name.
      var k := |stem| + 1 + (if |a| < |b| then |a| else |b|);
      if |a| < |b| {
        assert fa[k] == Suffix(ka)[0] == '-' && IsWordChar(fb[k]);
      } else {
        assert fb[k] == Suffix(kb)[0] == '-' && IsWordChar(fa[k]);
      }
    }
    if ka == kb && fa == fb {
      assert Sanitize(a) == fa[|stem| + 1..|stem| + 1 + |a|];
    }
  }

  /** The track of `kind` featuring part `i`, named `name`. */
  function Derived(stem: string, i: nat, name: string, kind: TrackKind): Track
  {
    Track(kind, i, OutputFile(stem, name, kind))
  }

  /** What one turn of the driver loop produces for part `i` named `name`. */
  function PairFor(stem: string, i: nat, name: string): PracticePair
  {
    PracticePair(Derived(stem, i, name, SoloTrack), Derived(stem, i, name, DominantTrack))
  }

  /** The parts of the modified score rendered into a track: each derived
      track re-reads the source score and applies its one policy. */
  function MixFor(parts: seq<Part>, t: Track): (r: seq<Part>)
    requires t.part < |parts|
    ensures |r| == |parts|
    ensures forall j :: 0 <= j < |r| ==> r[j] == parts[j].(channel := r[j].channel)
    ensures forall j :: 0 <= j < |r| ==> NonMixer(r[j].channel) == NonMixer(parts[j].channel)
  {
    match t.kind
    case SoloTrack => SoloMix(parts, t.part)
    case DominantTrack => DominantMix(parts, t.part)
  }

  /** Pair `m` of `pairs` is the one the loop produces for part `i`. */
  ghost predicate PairAt(pairs: seq<PracticePair>, m: nat, parts: seq<Part>, stem: string, i: nat)
  {
    && m < |pairs|
    && i < |parts|
    && parts[i].trackName.Some?
    && pairs[m] == PairFor(stem, i, parts[i].trackName.value)
  }

  /** The driver loop over `idx`: a solo then a dominant track per index; a part
      without a track name raises, which ends the loop there. */
  function PlanFor(parts: seq<Part>, stem: string, idx: seq<nat>): (plan: Plan)
    requires forall m :: 0 <= m < |idx| ==> idx[m] < |parts|
    ensures |plan.pairs| <= |idx|
    ensures forall m :: 0 <= m < |plan.pairs| ==> PairAt(plan.pairs, m, parts, stem, idx[m])
    ensures plan.failure.None? <==> forall m :: 0 <= m < |idx| ==> parts[idx[m]].trackName.Some?
    ensures plan.failure.None? ==> |plan.pairs| == |idx|
    ensures plan.failure.Some? ==>
              && plan.failure.value == MissingTrackName
              && |plan.pairs| < |idx|
              && parts[idx[|plan.pairs|]].trackName.None?
    decreases |idx|
  {
    if |idx| == 0 then Plan([], None)
    else
      var i := idx[0];
      match Name(parts[i])
      case Err(e) => Plan([], Some(e))
      case Ok(name) =>
        var rest := PlanFor(parts, stem, idx[1..]);
        PlanShift(PairFor(stem, i, name), rest.pairs, parts, stem, idx);
        Plan([PairFor(stem, i, name)] + rest.pairs, rest.failure)
  }

  lemma PlanShift(pair: PracticePair, rest: seq<PracticePair>, parts: seq<Part>, stem: string, idx: seq<nat>)
    requires |idx| > 0 && forall m :: 0 <= m < |idx| ==> idx[m] < |parts|
    requires parts[idx[0]].trackName.Some?
    requires pair == PairFor(stem, idx[0], parts[idx[0]].trackName.value)
    requires |rest| <= |idx| - 1
    requires forall m :: 0 <= m < |rest| ==> PairAt(rest, m, parts, stem, idx[1..][m])
    ensures forall m :: 0 <= m < |rest| + 1 ==> PairAt([pair] + rest, m, parts, stem, idx[m])
  {
    var all := [pair] + rest;
    forall m | 0 <= m < |all|
      ensures PairAt(all, m, parts, stem, idx[m])
    {
      if m > 0 {
        assert PairAt(rest, m - 1, parts, stem, idx[1..][m - 1]);
        assert all[m] == rest[m - 1];
      }
    }
  }

  /** All derived tracks of a score: a pair for each selected part, in
      ascending part order, until a selected part without a name. */
  function DerivedTracks(score: Score, stem: string): (plan: Plan)
    ensures |plan.pairs| <= |VocalIndices(score)|
    ensures plan.failure.None? ==> |plan.pairs| == |VocalIndices(score)|
    ensures forall m :: 0 <= m < |plan.pairs| ==>
              PairAt(plan.pairs, m, score.parts, stem, VocalIndices(score)[m])
  {
    PlanFor(score.parts, stem, VocalIndices(score))
  }

  /** Both tracks of pair `m` feature the `m`-th selected part, which is
      vocal and not empty. */
  lemma DerivedPairPart(score: Score, stem: string, m: nat)
    requires m < |DerivedTracks(score, stem).pairs|
    ensures var pair := DerivedTracks(score, stem).pairs[m];
            && pair.solo.kind == SoloTrack && pair.dominant.kind == DominantTrack
            && pair.solo.part == pair.dominant.part == VocalIndices(score)[m]
            && pair.solo.part < |score.parts| && Selected(score, pair.solo.part)
  {
    assert PairAt(DerivedTracks(score, stem).pairs, m, score.parts, stem, VocalIndices(score)[m]);
  }

  /** Later pairs feature later parts. */
  lemma DerivedPairsAscend(score: Score, stem: string, m: nat, n: nat)
    requires m < n < |DerivedTracks(score, stem).pairs|
    ensures DerivedTracks(score, stem).pairs[m].solo.part < DerivedTracks(score, stem).pairs[n].solo.part
  {
    DerivedPairPart(score, stem, m);
    DerivedPairPart(score, stem, n);
  }

  /** Without a failure, every selected part gets its pair of tracks. */
  lemma DerivedTracksComplete(score: Score, stem: string, i: nat)
    requires i < |score.parts| && Selected(score, i)
    requires DerivedTracks(score, stem).failure.None?
    ensures score.parts[i].trackName.Some?
    ensures PairFor(stem, i, score.parts[i].trackName.value) in DerivedTracks(score, stem).pairs
  {
    var idx := VocalIndices(score);
    var pairs := DerivedTracks(score, stem).pairs;
    var m :| 0 <= m < |idx| && idx[m] == i;
    assert PairAt(pairs, m, score.parts, stem, idx[m]);
  }

  /** The solo track of pair `m` renders the solo mix of the `m`-th selected
      part, and its dominant track the dominant mix of the same part. */
  lemma DerivedTrackMixes(score: Score, stem: string, m: nat)
    requires m < |DerivedTracks(score, stem).pairs|
    ensures var pair := DerivedTracks(score, stem).pairs[m];
            pair.solo.part == pair.dominant.part == VocalIndices(score)[m] < |score.parts|
    ensures var pair := DerivedTracks(score, stem).pairs[m];
            && MixFor(score.parts, pair.solo) == SoloMix(score.parts, VocalIndices(score)[m])
            && MixFor(score.parts, pair.dominant) == DominantMix(score.parts, VocalIndices(score)[m])
  {
    DerivedPairPart(score, stem, m);
    var pair := DerivedTracks(score, stem).pairs[m];
    PolicyOf(score.parts, pair.solo);
    PolicyOf(score.parts, pair.dominant);
  }

  /** A track renders the mix of its kind, featuring its part. */
  lemma PolicyOf(parts: seq<Part>, t: Track)
    requires t.part < |parts|
    ensures t.kind == SoloTrack ==> MixFor(parts, t) == SoloMix(parts, t.part)
    ensures t.kind == DominantTrack ==> MixFor(parts, t) == DominantMix(parts, t.part)
  {
  }

  /** In either mix the featured part is at volume 110, louder than every
      other part, and placed centre (solo) or right (dominant). */
  lemma FeaturedIsLoudest(parts: seq<Part>, t: Track)
    requires t.part < |parts|
    ensures |MixFor(parts, t)| == |parts|
    ensures Volume(MixFor(parts, t)[t.part]) == 110
    ensures Pan(MixFor(parts, t)[t.part]) == (if t.kind == SoloTrack then 0.0 else 1.0)
    ensures forall j :: 0 <= j < |parts| && j != t.part ==> Volume(MixFor(parts, t)[j]) < 110
  {
    if t.kind == SoloTrack {
      SoloFeatured(parts, t.part);
    } else {
      DominantFeatured(parts, t.part);
    }
  }

  lemma SoloFeatured(parts: seq<Part>, i: nat)
    requires i < |parts|
    ensures var r := SoloMix(parts, i);
            Volume(r[i]) == 110 && Pan(r[i]) == 0.0
            && forall j :: 0 <= j < |parts| && j != i ==> Volume(r[j]) == 0
  {
  }

  lemma DominantFeatured(parts: seq<Part>, i: nat)
    requires i < |parts|
    ensures var r := DominantMix(parts, i);
            Volume(r[i]) == 110 && Pan(r[i]) == 1.0
            && forall j :: 0 <= j < |parts| && j != i ==> Volume(r[j]) <= 50
  {
  }

  /** The three-part score of the choir scenario below. */
  function ChoirScore(): Score
  {
    Score([ Part(Some("piano"), ["1"], Some("Piano"), []),
            Part(Some("voice.soprano"), ["2"], Some("Soprano"), []),
            Part(Some("voice.alto"), ["3"], Some("Alto"), []) ],
          [ Staff("1", true), Staff("2", true), Staff("3", false) ])
  }

  lemma PianoIsNotVocal()
    ensures !IsVocal(ChoirScore().parts[0])
  {
    forall k | 0 <= k <= 5 ensures !VoiceLineAt("piano", k) {
      assert |"piano"[k..]| < |VoicePrefix|;
    }
  }

  lemma SopranoIsSelected()
    ensures Selected(ChoirScore(), 1)
  {
    var score := ChoirScore();
    assert StartsWith("voice.soprano", VoicePrefix);
    assert VoiceLineAt("voice.soprano", 0);
    assert score.staves[1].id in score.parts[1].staffIds;
  }

  lemma AltoIsEmpty()
    ensures IsEmpty(ChoirScore().parts[2], ChoirScore().staves)
  {
    var score := ChoirScore();
    assert forall k :: 0 <= k < 3 && score.staves[k].id in ["3"] ==> k == 2;
  }

  /** A single flagged position at or after `k` is the only index reported. */
  lemma {:induction false} SoleFlag(flags: seq<bool>, i: nat, k: nat)
    requires k <= i < |flags| && flags[i]
    requires forall j :: 0 <= j < |flags| && j != i ==> !flags[j]
    ensures IndicesFrom(flags, k) == [i]
    decreases i - k
  {
    if k < i {
      SoleFlag(flags, i, k + 1);
    } else {
      NoneFlagged(flags, i + 1);
    }
  }

  /** No flagged position at or after `k`: nothing is reported. */
  lemma {:induction false} NoneFlagged(flags: seq<bool>, k: nat)
    requires forall j :: k <= j < |flags| ==> !flags[j]
    ensures IndicesFrom(flags, k) == []
    decreases |flags| - k
  {
    if k < |flags| {
      NoneFlagged(flags, k + 1);
    }
  }

  /** When exactly one part is selected, it alone gets practice tracks. */
  lemma SoleSelection(score: Score, i: nat)
    requires i < |score.parts| && Selected(score, i)
    requires forall j :: 0 <= j < |score.parts| && j != i ==> !Selected(score, j)
    ensures VocalIndices(score) == [i]
  {
    var flags := seq(|score.parts|, j requires 0 <= j < |score.parts| => Selected(score, j));
    SoleFlag(flags, i, 0);
  }

  /** A plan for a single named part is its one pair, without failure. */
  lemma PlanForOne(parts: seq<Part>, stem: string, i: nat)
    requires i < |parts| && parts[i].trackName.Some?
    ensures PlanFor(parts, stem, [i]) == Plan([PairFor(stem, i, parts[i].trackName.value)], None)
  {
    assert [i][1..] == [];
  }

  /** A piano, a soprano with notes and an alto without: only the soprano
      (index 1) is selected. */
  lemma ChoirScenario()
    ensures VocalIndices(ChoirScore()) == [1]
  {
    PianoIsNotVocal();
    SopranoIsSelected();
    AltoIsEmpty();
    SoleSelection(ChoirScore(), 1);
  }

  /** The same score yields exactly one solo and one dominant track, both
      named after the soprano. */
  lemma ChoirTracks(stem: string)
    ensures DerivedTracks(ChoirScore(), stem) == Plan([PairFor(stem, 1, "Soprano")], None)
  {
    var score := ChoirScore();
    ChoirScenario();
    assert score.parts[1].trackName == Some("Soprano");
    PlanForOne(score.parts, stem, 1);
  }
}

=== FILE: mix.dfy ===
/**
 * The two mixing policies applied to a score's ordered list of parts for one
 * target index. Every step of both policies touches a single part, so the
 * Ruby loops over the list are written here as one per-part function applied
 * at every index.
 */
module MixPolicy {
  import opened ChannelTree
  import opened PanCodec
  import opened PartModel
  import opened Wrappers

  const TargetVolume: MidiValue := 110
  const BackingVocalVolume: MidiValue := 50
  const BackingOtherVolume: MidiValue := 40
  const FullLeft: PanValue := -1.0
  const FullRight: PanValue := 1.0

  // ---------------------------------------------------------------- solo

  /** What the solo policy does to every part first: mute, unsolo, volume 0. */
  function SoloBacking(p: Part): (r: Part)
    ensures r == p.(channel := r.channel)
    ensures Reads(r) == MixState(true, Soloed(r), 0, Pan(p))
    ensures Select(r.channel, MuteQ) == [MuteElem("1")] + Tail(Select(p.channel, MuteQ))
    ensures Select(r.channel, SoloQ) == Tail(Select(p.channel, SoloQ))
    ensures Select(r.channel, ControllerQ(PanController)) == Select(p.channel, ControllerQ(PanController))
    ensures Single(p.channel, SoloQ) ==> !Soloed(r)
    ensures forall q :: Single(p.channel, q) ==> Single(r.channel, q)
    ensures NonMixer(r.channel) == NonMixer(p.channel)
    ensures forall q :: !MixerQuery(q) ==> Select(r.channel, q) == Select(p.channel, q)
  {
    var m := Mute(p);
    var u := Unsolo(m);
    var r := StoreVolume(u, 0);
    OthersDecideSelect(u.channel, m.channel, SoloQ);
    OthersDecideSelect(r.channel, u.channel, ControllerQ(VolumeController));
    NonMixerDecidesSelect(r.channel, p.channel);
    r
  }

  /** What both policies finally do to their target: unmute, set the pan,
      volume 110. */
  function Feature(p: Part, pan: PanValue): (r: Part)
    ensures r == p.(channel := r.channel)
    ensures Reads(r) == MixState(Muted(r), Soloed(p), 110, Pan(r))
    ensures Select(r.channel, SoloQ) == Select(p.channel, SoloQ)
    ensures pan == -1.0 || pan == 0.0 || pan == 1.0 ==> Pan(r) == pan
    ensures Single(p.channel, MuteQ) ==> !Muted(r)
    ensures forall q :: Single(p.channel, q) ==> Single(r.channel, q)
    ensures NonMixer(r.channel) == NonMixer(p.channel)
  {
    var unmuted := Unmute(p);
    var placed := StorePan(unmuted, pan);
    StoreVolume(placed, TargetVolume)
  }

  /** Then to the target: solo, then bring it forward at the centre. */
  function SoloTarget(p: Part): (r: Part)
    ensures r == p.(channel := r.channel)
    ensures Reads(r) == MixState(Muted(r), true, 110, 0.0)
    ensures Select(r.channel, SoloQ) == [SoloElem("1")] + Tail(Tail(Select(p.channel, SoloQ)))
    ensures Lookup(r.channel, SoloQ) == Some(SoloElem("1"))
    ensures Single(p.channel, MuteQ) ==> !Muted(r)
    ensures forall q :: Single(p.channel, q) ==> Single(r.channel, q)
    ensures NonMixer(r.channel) == NonMixer(p.channel)
    ensures forall q :: !MixerQuery(q) ==> Select(r.channel, q) == Select(p.channel, q)
  {
    var soloed := Solo(SoloBacking(p));
    assert Single(p.channel, MuteQ) ==> Single(soloed.channel, MuteQ);
    var r := Feature(soloed, 0.0);
    NonMixerDecidesSelect(r.channel, p.channel);
    r
  }

  /** The solo track's mix: only the target is heard, centred at volume 110.
      The solo flag is set as well although the renderer ignores it on export. */
  function SoloMix(parts: seq<Part>, i: int): (r: seq<Part>)
    requires 0 <= i < |parts|
    ensures |r| == |parts|
    ensures forall j :: 0 <= j < |r| ==> r[j] == parts[j].(channel := r[j].channel)
    ensures forall j :: 0 <= j < |r| && j != i ==>
              Muted(r[j]) && Volume(r[j]) == 0 && Pan(r[j]) == Pan(parts[j])
    ensures forall j :: 0 <= j < |r| && j != i && Single(parts[j].channel, SoloQ) ==> !Soloed(r[j])
    ensures forall j :: 0 <= j < |r| && j != i ==>
              Select(r[j].channel, MuteQ) == [MuteElem("1")] + Tail(Select(parts[j].channel, MuteQ))
    ensures forall j :: 0 <= j < |r| && j != i ==>
              Select(r[j].channel, ControllerQ(PanController)) == Select(parts[j].channel, ControllerQ(PanController))
    ensures Lookup(r[i].channel, SoloQ) == Some(SoloElem("1"))
    ensures Soloed(r[i]) && Volume(r[i]) == 110 && Pan(r[i]) == 0.0
    ensures Single(parts[i].channel, MuteQ) ==> !Muted(r[i])
    ensures forall j, q :: 0 <= j < |r| && Single(parts[j].channel, q) ==> Single(r[j].channel, q)
    ensures forall j :: 0 <= j < |r| ==> NonMixer(r[j].channel) == NonMixer(parts[j].channel)
    ensures forall j, q :: 0 <= j < |r| && !MixerQuery(q) ==> Select(r[j].channel, q) == Select(parts[j].channel, q)
  {
    var r := seq(|parts|, j requires 0 <= j < |parts| =>
      if j == i then SoloTarget(parts[j]) else SoloBacking(parts[j]));
    SoloMixBacking(parts, i, r);
    SoloMixTarget(parts, i, r);
    r
  }

  /** The solo policy on the parts other than the target. */
  lemma {:induction false} SoloMixBacking(parts: seq<Part>, i: int, r: seq<Part>)
    requires 0 <= i < |parts| && |r| == |parts|
    requires forall j :: 0 <= j < |r| ==>
               r[j] == if j == i then SoloTarget(parts[j]) else SoloBacking(parts[j])
    ensures forall j :: 0 <= j < |r| ==> r[j] == parts[j].(channel := r[j].channel)
    ensures forall j :: 0 <= j < |r| && j != i ==>
              Muted(r[j]) && Volume(r[j]) == 0 && Pan(r[j]) == Pan(parts[j])
    ensures forall j :: 0 <= j < |r| && j != i && Single(parts[j].channel, SoloQ) ==> !Soloed(r[j])
    ensures forall j :: 0 <= j < |r| && j != i ==>
              Select(r[j].channel, MuteQ) == [MuteElem("1")] + Tail(Select(parts[j].channel, MuteQ))
    ensures forall j :: 0 <= j < |r| && j != i ==>
              Select(r[j].channel, ControllerQ(PanController)) == Select(parts[j].channel, ControllerQ(PanController))
    ensures forall j, q :: 0 <= j < |r| && Single(parts[j].channel, q) ==> Single(r[j].channel, q)
    ensures forall j :: 0 <= j < |r| ==> NonMixer(r[j].channel) == NonMixer(parts[j].channel)
    ensures forall j, q :: 0 <= j < |r| && !MixerQuery(q) ==> Select(r[j].channel, q) == Select(parts[j].channel, q)
  {
    forall j | 0 <= j < |r| && j != i
      ensures Muted(r[j]) && Volume(r[j]) == 0 && Pan(r[j]) == Pan(parts[j])
      ensures Select(r[j].channel, MuteQ) == [MuteElem("1")] + Tail(Select(parts[j].channel, MuteQ))
      ensures Select(r[j].channel, ControllerQ(PanController)) == Select(parts[j].channel, ControllerQ(PanController))
    {
      assert Reads(r[j]) == MixState(true, Soloed(r[j]), 0, Pan(parts[j]));
    }
  }

  /** The solo policy on the target. */
  lemma SoloMixTarget(parts: seq<Part>, i: int, r: seq<Part>)
    requires 0 <= i < |parts| && |r| == |parts|
    requires r[i] == SoloTarget(parts[i])
    ensures Lookup(r[i].channel, SoloQ) == Some(SoloElem("1"))
    ensures Soloed(r[i]) && Volume(r[i]) == 110 && Pan(r[i]) == 0.0
    ensures Single(parts[i].channel, MuteQ) ==> !Muted(r[i])
  {
    assert Reads(r[i]) == MixState(Muted(r[i]), true, 110, 0.0);
  }

  // ---------------------------------------------------------------- dominant

  /** The volume a non-target part gets in the dominant mix. */
  function BackingVolume(p: Part): MidiValue
  {
    if IsVocal(p) then BackingVocalVolume else BackingOtherVolume
  }

  /** A non-target part: unsolo, full left, volume 50 (vocal) or 40 (other). */
  function DominantBacking(p: Part): (r: Part)
    ensures r == p.(channel := r.channel)
    ensures Reads(r) == MixState(Muted(p), Soloed(r), if IsVocal(p) then 50 else 40, -1.0)
    ensures Select(r.channel, MuteQ) == Select(p.channel, MuteQ)
    ensures Select(r.channel, ControllerQ(PanController))
         == [ControllerElem(PanController, 1)] + Tail(Select(p.channel, ControllerQ(PanController)))
    ensures Single(p.channel, SoloQ) ==> !Soloed(r)
    ensures forall q :: Single(p.channel, q) ==> Single(r.channel, q)
    ensures NonMixer(r.channel) == NonMixer(p.channel)
    ensures forall q :: !MixerQuery(q) ==> Select(r.channel, q) == Select(p.channel, q)
  {
    var u := Unsolo(p);
    var placed := StorePan(u, FullLeft);
    var r := StoreVolume(placed, BackingVolume(p));
    ExactPositions();
    OthersDecideSelect(u.channel, p.channel, SoloQ);
    OthersDecideSelect(r.channel, placed.channel, ControllerQ(VolumeController));
    NonMixerDecidesSelect(r.channel, p.channel);
    r
  }

  /** The target part: unsolo, then bring it forward on the right. */
  function DominantTarget(p: Part): (r: Part)
    ensures r == p.(channel := r.channel)
    ensures Reads(r) == MixState(Muted(r), Soloed(r), 110, 1.0)
    ensures Single(p.channel, SoloQ) ==> !Soloed(r)
    ensures Single(p.channel, MuteQ) ==> !Muted(r)
    ensures forall q :: Single(p.channel, q) ==> Single(r.channel, q)
    ensures NonMixer(r.channel) == NonMixer(p.channel)
    ensures forall q :: !MixerQuery(q) ==> Select(r.channel, q) == Select(p.channel, q)
  {
    var unsoloed := Unsolo(p);
    assert Single(p.channel, MuteQ) ==> Single(unsoloed.channel, MuteQ);
    var r := Feature(unsoloed, FullRight);
    NonMixerDecidesSelect(r.channel, p.channel);
    r
  }

  /** The dominant track's mix: the target alone on the right at full
      presence, everything else on the left, vocals louder than instruments. */
  function DominantMix(parts: seq<Part>, i: int): (r: seq<Part>)
    requires 0 <= i < |parts|
    ensures |r| == |parts|
    ensures forall j :: 0 <= j < |r| ==> r[j] == parts[j].(channel := r[j].channel)
    ensures forall j :: 0 <= j < |r| && j != i ==>
              Pan(r[j]) == -1.0 && Muted(r[j]) == Muted(parts[j])
              && Volume(r[j]) == (if IsVocal(parts[j]) then 50 else 40)
    ensures forall j :: 0 <= j < |r| && j != i ==> Select(r[j].channel, MuteQ) == Select(parts[j].channel, MuteQ)
    ensures forall j :: 0 <= j < |r| && j != i ==>
              Select(r[j].channel, ControllerQ(PanController))
              == [ControllerElem(PanController, 1)] + Tail(Select(parts[j].channel, ControllerQ(PanController)))
    ensures forall j :: 0 <= j < |r| && Single(parts[j].channel, SoloQ) ==> !Soloed(r[j])
    ensures Volume(r[i]) == 110 && Pan(r[i]) == 1.0
    ensures Single(parts[i].channel, MuteQ) ==> !Muted(r[i])
    ensures forall j, q :: 0 <= j < |r| && Single(parts[j].channel, q) ==> Single(r[j].channel, q)
    ensures forall j :: 0 <= j < |r| ==> NonMixer(r[j].channel) == NonMixer(parts[j].channel)
    ensures forall j, q :: 0 <= j < |r| && !MixerQuery(q) ==> Select(r[j].channel, q) == Select(parts[j].channel, q)
  {
    var r := seq(|parts|, j requires 0 <= j < |parts| =>
      if j == i then DominantTarget(parts[j]) else DominantBacking(parts[j]));
    DominantMixFrame(parts, i, r);
    DominantMixBacking(parts, i, r);
    DominantMixTarget(parts, i, r);
    r
  }

  /** The dominant policy changes only channels, and there only mixer children. */
  lemma DominantMixFrame(parts: seq<Part>, i: int, r: seq<Part>)
    requires 0 <= i < |parts| && |r| == |parts|
    requires forall j :: 0 <= j < |r| ==>
               r[j] == if j == i then DominantTarget(parts[j]) else DominantBacking(parts[j])
    ensures forall j :: 0 <= j < |r| ==> r[j] == parts[j].(channel := r[j].channel)
    ensures forall j, q :: 0 <= j < |r| && Single(parts[j].channel, q) ==> Single(r[j].channel, q)
    ensures forall j :: 0 <= j < |r| ==> NonMixer(r[j].channel) == NonMixer(parts[j].channel)
    ensures forall j, q :: 0 <= j < |r| && !MixerQuery(q) ==> Select(r[j].channel, q) == Select(parts[j].channel, q)
  {
  }

  /** The dominant policy on the parts other than the target. */
  lemma {:induction false} DominantMixBacking(parts: seq<Part>, i: int, r: seq<Part>)
    requires 0 <= i < |parts| && |r| == |parts|
    requires forall j :: 0 <= j < |r| ==>
               r[j] == if j == i then DominantTarget(parts[j]) else DominantBacking(parts[j])
    ensures forall j :: 0 <= j < |r| && j != i ==>
              Pan(r[j]) == -1.0 && Muted(r[j]) == Muted(parts[j])
              && Volume(r[j]) == (if IsVocal(parts[j]) then 50 else 40)
    ensures forall j :: 0 <= j < |r| && j != i ==> Select(r[j].channel, MuteQ) == Select(parts[j].channel, MuteQ)
    ensures forall j :: 0 <= j < |r| && j != i ==>
              Select(r[j].channel, ControllerQ(PanController))
              == [ControllerElem(PanController, 1)] + Tail(Select(parts[j].channel, ControllerQ(PanController)))
    ensures forall j :: 0 <= j < |r| && Single(parts[j].channel, SoloQ) ==> !Soloed(r[j])
  {
    forall j | 0 <= j < |r|
      ensures j != i ==> Pan(r[j]) == -1.0 && Muted(r[j]) == Muted(parts[j])
                         && Volume(r[j]) == (if IsVocal(parts[j]) then 50 else 40)
      ensures Single(parts[j].channel, SoloQ) ==> !Soloed(r[j])
      ensures j != i ==> Select(r[j].channel, MuteQ) == Select(parts[j].channel, MuteQ)
      ensures j != i ==> Select(r[j].channel, ControllerQ(PanController))
                         == [ControllerElem(PanController, 1)] + Tail(Select(parts[j].channel, ControllerQ(PanController)))
    {
      if j == i {
        assert r[j] == DominantTarget(parts[j]);
      } else {
        var b := DominantBacking(parts[j]);
        assert r[j] == b;
        assert Reads(b) == MixState(Muted(parts[j]), Soloed(b), if IsVocal(parts[j]) then 50 else 40, -1.0);
      }
    }
  }

  /** The dominant policy on the target. */
  lemma DominantMixTarget(parts: seq<Part>, i: int, r: seq<Part>)
    requires 0 <= i < |parts| && |r| == |parts|
    requires r[i] == DominantTarget(parts[i])
    ensures Volume(r[i]) == 110 && Pan(r[i]) == 1.0
    ensures Single(parts[i].channel, MuteQ) ==> !Muted(r[i])
  {
    assert Reads(r[i]) == MixState(Muted(r[i]), Soloed(r[i]), 110, 1.0);
  }

  /** Both policies keep every well-formed channel well-formed. */
  lemma MixesKeepWellFormed(parts: seq<Part>, i: int, j: int)
    requires 0 <= i < |parts| && 0 <= j < |parts|
    requires WellFormed(parts[j].channel)
    ensures WellFormed(SoloMix(parts, i)[j].channel)
    ensures WellFormed(DominantMix(parts, i)[j].channel)
  {
    var solo, dominant := SoloMix(parts, i), DominantMix(parts, i);
    forall q ensures Single(solo[j].channel, q) && Single(dominant[j].channel, q) {
      assert Single(parts[j].channel, q);
    }
  }
}

=== FILE: pan.dfy ===
/**
 * Pan is stored in the channel as a MIDI controller value 0..127 with 64 as
 * centre and read back as a real in -1..1. Reals are exact here; the Ruby code
 * uses floats, which agree on every value the mix policies write (-1, 0, 1).
 */
module PanCodec {

  /** Stored value of a centred pan; also what an absent controller reads as. */
  const Centre: int := 64

  /** Stored units per unit of pan. */
  const Steps: real := 63.0

  /** The pan values `pan=` accepts. */
  type PanValue = v: real | -1.0 <= v <= 1.0

  /** The stored value `pan=` writes: floor(v * 63 + 64). */
  function Encode(v: PanValue): (s: int)
    ensures 1 <= s <= 127
    ensures (s - Centre) as real <= v * Steps < (s - Centre + 1) as real
  {
    (v * Steps + Centre as real).Floor
  }

  /** The pan `pan` reads from a stored value: max(-1.0, (s - 64) / 63). */
  function Decode(s: int): (v: real)
    ensures -1.0 <= v
    ensures v == -1.0 <==> s <= 1
    ensures s <= 127 ==> v <= 1.0
    ensures 1 <= s ==> v * Steps == (s - Centre) as real
  {
    var raw := (s - Centre) as real / Steps;
    if raw < -1.0 then -1.0 else raw
  }

  /** Reading back what was written loses less than one step, never rounding up. */
  lemma EncodeThenDecode(v: PanValue)
    ensures v - 1.0 / Steps < Decode(Encode(v)) <= v
  {
    var s := Encode(v);
    var d := Decode(s);
    assert d * Steps == (s - Centre) as real;
    assert d * Steps <= v * Steps;
    assert v * Steps - 1.0 < d * Steps;
  }

  /** Full left, centre and full right survive the round trip exactly. */
  lemma ExactPositions()
    ensures Encode(-1.0) == 1 && Decode(1) == -1.0
    ensures Encode(0.0) == Centre && Decode(Centre) == 0.0
    ensures Encode(1.0) == 127 && Decode(127) == 1.0
  {
  }

  /** Stored values 1..127 are fixed points of decode-then-encode; 0 is not,
      because it reads as -1.0 like 1 does. */
  lemma DecodeThenEncode(s: int)
    requires 1 <= s <= 127
    ensures Encode(Decode(s)) == s
  {
    var d := Decode(s);
    assert d * Steps + Centre as real == s as real;
  }

  lemma StoredZeroIsNotRecovered()
    ensures Decode(0) == Decode(1) == -1.0
    ensures Encode(Decode(0)) == 1
  {
  }
}

=== FILE: part.dfy ===
/**
 * One `Part` element of a score and the accessors the transformer uses on it.
 * Reads of an absent mixing attribute give its default and change nothing;
 * writes create the child element on first use and update it in place later.
 */
module PartModel {
  import opened Wrappers
  import opened ChannelTree
  import opened PanCodec

  /** A part: `Instrument/instrumentId`, the ids of its `Staff` children,
      `trackName`, and the children of `Instrument/Channel`. */
  datatype Part = Part(
    instrumentId: Option<string>,
    staffIds: seq<string>,
    trackName: Option<string>,
    channel: Channel)

  /** A score-level `Staff` element: its id and whether it holds any `Note`. */
  datatype Staff = Staff(id: string, hasNote: bool)

  const VolumeController: int := 7
  const PanController: int := 10
  const DefaultVolume: int := 100

  /** The values `volume=` accepts. */
  type MidiValue = v: int | 0 <= v <= 127

  /** Everything the mixer reads from a part, for stating what a write leaves alone. */
  datatype MixState = MixState(muted: bool, soloed: bool, volume: int, pan: real)

  function Reads(p: Part): MixState
  {
    MixState(Muted(p), Soloed(p), Volume(p), Pan(p))
  }

  /** The queries behind the mixer reads: `mute`, `solo`, ctrl 7 and ctrl 10. */
  predicate MixerQuery(q: Query)
  {
    q == MuteQ || q == SoloQ || q == ControllerQ(VolumeController) || q == ControllerQ(PanController)
  }

  predicate MixerChild(e: Elem)
  {
    Matches(e, MuteQ) || Matches(e, SoloQ)
    || Matches(e, ControllerQ(VolumeController)) || Matches(e, ControllerQ(PanController))
  }

  /** The children no mixer query selects, in document order: what every
      accessor and both policies leave alone. */
  function NonMixer(ch: Channel): (r: Channel)
    ensures forall k :: 0 <= k < |r| ==> !MixerChild(r[k])
  {
    if |ch| == 0 then []
    else (if MixerChild(ch[0]) then [] else [ch[0]]) + NonMixer(ch[1..])
  }

  /** Dropping the children of one mixer query keeps the non-mixer children. */
  lemma {:induction false} NonMixerThroughOthers(ch: Channel, q: Query)
    requires MixerQuery(q)
    ensures NonMixer(Others(ch, q)) == NonMixer(ch)
  {
    if |ch| > 0 {
      NonMixerThroughOthers(ch[1..], q);
      var o := Others(ch, q);
      var h := if MixerChild(ch[0]) then [] else [ch[0]];
      assert NonMixer(ch) == h + NonMixer(ch[1..]);
      if Matches(ch[0], q) {
        assert MixerChild(ch[0]);
        assert o == Others(ch[1..], q);
      } else {
        assert o == [ch[0]] + Others(ch[1..], q);
        assert o[0] == ch[0] && o[1..] == Others(ch[1..], q);
        assert NonMixer(o) == h + NonMixer(o[1..]);
      }
    }
  }

  /** A query outside the mixer's selects only non-mixer children. */
  lemma {:induction false} SelectThroughNonMixer(ch: Channel, q: Query)
    requires !MixerQuery(q)
    ensures Select(ch, q) == Select(NonMixer(ch), q)
  {
    if |ch| > 0 {
      SelectThroughNonMixer(ch[1..], q);
      var n := NonMixer(ch);
      var h := if Matches(ch[0], q) then [ch[0]] else [];
      assert Select(ch, q) == h + Select(ch[1..], q);
      if MixerChild(ch[0]) {
        assert !Matches(ch[0], q);
        assert n == NonMixer(ch[1..]);
      } else {
        assert n == [ch[0]] + NonMixer(ch[1..]);
        assert n[0] == ch[0] && n[1..] == NonMixer(ch[1..]);
        assert Select(n, q) == h + Select(n[1..], q);
      }
    }
  }

  /** Channels with the same non-mixer children answer every non-mixer query alike. */
  lemma NonMixerDecidesSelect(a: Channel, b: Channel)
    requires NonMixer(a) == NonMixer(b)
    ensures forall q :: !MixerQuery(q) ==> Select(a, q) == Select(b, q)
  {
    forall q | !MixerQuery(q)
      ensures Select(a, q) == Select(b, q)
    {
      SelectThroughNonMixer(a, q);
      SelectThroughNonMixer(b, q);
    }
  }

  /** Each mixer read depends only on what its own query selects. */
  lemma SameReads(a: Part, b: Part, q: Query)
    requires forall q' :: q' != q ==> Select(a.channel, q') == Select(b.channel, q')
    ensures q != MuteQ ==> Muted(a) == Muted(b)
    ensures q != SoloQ ==> Soloed(a) == Soloed(b)
    ensures q != ControllerQ(VolumeController) ==> Volume(a) == Volume(b)
    ensures q != ControllerQ(PanController) ==> Pan(a) == Pan(b)
  {
    assert q != MuteQ ==> Select(a.channel, MuteQ) == Select(b.channel, MuteQ);
    assert q != SoloQ ==> Select(a.channel, SoloQ) == Select(b.channel, SoloQ);
    assert q != ControllerQ(VolumeController) ==>
      Select(a.channel, ControllerQ(VolumeController)) == Select(b.channel, ControllerQ(VolumeController));
    assert q != ControllerQ(PanController) ==>
      Select(a.channel, ControllerQ(PanController)) == Select(b.channel, ControllerQ(PanController));
  }

  // ---------------------------------------------------------------- mute

  /** `muted?`: the first `mute` child exists and its text is not "0". */
  predicate Muted(p: Part)
    ensures Muted(p) <==> var sel := Select(p.channel, MuteQ);
                          |sel| > 0 && sel[0].text != "0"
  {
    var m := Lookup(p.channel, MuteQ);
    m.Some? && m.value.text != "0"
  }

  /** `mute!`: set the first `mute` child's text to "1", creating it if absent. */
  function Mute(p: Part): (r: Part)
    ensures r == p.(channel := r.channel)
    ensures Reads(r) == Reads(p).(muted := true)
    ensures Select(r.channel, MuteQ) == [MuteElem("1")] + Tail(Select(p.channel, MuteQ))
    ensures Others(r.channel, MuteQ) == Others(p.channel, MuteQ)
    ensures NonMixer(r.channel) == NonMixer(p.channel)
    ensures forall q :: Single(p.channel, q) ==> Single(r.channel, q)
  {
    var ch := Put(p.channel, MuteQ, MuteElem("1"));
    NonMixerThroughOthers(p.channel, MuteQ);
    NonMixerThroughOthers(ch, MuteQ);
    SameReads(p.(channel := ch), p, MuteQ);
    p.(channel := ch)
  }

  /** `unmute!`: remove the first `mute` child, if any. */
  function Unmute(p: Part): (r: Part)
    ensures r == p.(channel := r.channel)
    ensures Reads(r) == Reads(p).(muted := Muted(r))
    ensures Single(p.channel, MuteQ) ==> !Muted(r)
    ensures Select(r.channel, MuteQ) == Tail(Select(p.channel, MuteQ))
    ensures Others(r.channel, MuteQ) == Others(p.channel, MuteQ)
    ensures Select(p.channel, MuteQ) == [] ==> r == p
    ensures NonMixer(r.channel) == NonMixer(p.channel)
    ensures forall q :: Single(p.channel, q) ==> Single(r.channel, q)
  {
    var ch := Remove(p.channel, MuteQ);
    NonMixerThroughOthers(p.channel, MuteQ);
    NonMixerThroughOthers(ch, MuteQ);
    SameReads(p.(channel := ch), p, MuteQ);
    p.(channel := ch)
  }

  // ---------------------------------------------------------------- solo

  /** `solo?`: the first `solo` child exists and its text is not "0". */
  predicate Soloed(p: Part)
    ensures Soloed(p) <==> var sel := Select(p.channel, SoloQ);
                           |sel| > 0 && sel[0].text != "0"
  {
    var s := Lookup(p.channel, SoloQ);
    s.Some? && s.value.text != "0"
  }

  /** `solo!`: set the first `solo` child's text to "1", creating it if absent. */
  function Solo(p: Part): (r: Part)
    ensures r == p.(channel := r.channel)
    ensures Reads(r) == Reads(p).(soloed := true)
    ensures Select(r.channel, SoloQ) == [SoloElem("1")] + Tail(Select(p.channel, SoloQ))
    ensures Others(r.channel, SoloQ) == Others(p.channel, SoloQ)
    ensures NonMixer(r.channel) == NonMixer(p.channel)
    ensures forall q :: Single(p.channel, q) ==> Single(r.channel, q)
  {
    var ch := Put(p.channel, SoloQ, SoloElem("1"));
    NonMixerThroughOthers(p.channel, SoloQ);
    NonMixerThroughOthers(ch, SoloQ);
    SameReads(p.(channel := ch), p, SoloQ);
    p.(channel := ch)
  }

  /** `unsolo!`: remove the first `solo` child, if any. */
  function Unsolo(p: Part): (r: Part)
    ensures r == p.(channel := r.channel)
    ensures Reads(r) == Reads(p).(soloed := Soloed(r))
    ensures Single(p.channel, SoloQ) ==> !Soloed(r)
    ensures Select(r.channel, SoloQ) == Tail(Select(p.channel, SoloQ))
    ensures Others(r.channel, SoloQ) == Others(p.channel, SoloQ)
    ensures Select(p.channel, SoloQ) == [] ==> r == p
    ensures NonMixer(r.channel) == NonMixer(p.channel)
    ensures forall q :: Single(p.channel, q) ==> Single(r.channel, q)
  {
    var ch := Remove(p.channel, SoloQ);
    NonMixerThroughOthers(p.channel, SoloQ);
    NonMixerThroughOthers(ch, SoloQ);
    SameReads(p.(channel := ch), p, SoloQ);
    p.(channel := ch)
  }

  // ---------------------------------------------------------------- volume

  /** `volume`: the value of the first ctrl-7 controller, or 100 without one. */
  function Volume(p: Part): (r: int)
    ensures var sel := Select(p.channel, ControllerQ(VolumeController));
            r == if |sel| == 0 then DefaultVolume else sel[0].value
  {
    match Lookup(p.channel, ControllerQ(VolumeController))
    case None => DefaultVolume
    case Some(c) => c.value
  }

  /** The storing half of `volume=`, for a value already in range. */
  function StoreVolume(p: Part, v: MidiValue): (r: Part)
    ensures r == p.(channel := r.channel)
    ensures Reads(r) == Reads(p).(volume := v)
    ensures Select(r.channel, ControllerQ(VolumeController))
         == [ControllerElem(VolumeController, v)] + Tail(Select(p.channel, ControllerQ(VolumeController)))
    ensures Others(r.channel, ControllerQ(VolumeController)) == Others(p.channel, ControllerQ(VolumeController))
    ensures NonMixer(r.channel) == NonMixer(p.channel)
    ensures forall q :: Single(p.channel, q) ==> Single(r.channel, q)
  {
    var ch := Put(p.channel, ControllerQ(VolumeController), ControllerElem(VolumeController, v));
    NonMixerThroughOthers(p.channel, ControllerQ(VolumeController));
    NonMixerThroughOthers(ch, ControllerQ(VolumeController));
    SameReads(p.(channel := ch), p, ControllerQ(VolumeController));
    p.(channel := ch)
  }

  /** `volume=`: refuse values outside 0..127 before touching anything. */
  function SetVolume(p: Part, v: int): (r: Result<Part>)
    ensures r.Err? <==> v < 0 || v > 127
    ensures r.Err? ==> r.error == InvalidVolume
    ensures r.Ok? ==> r.value == p.(channel := r.value.channel)
    ensures r.Ok? ==> Reads(r.value) == Reads(p).(volume := v)
    ensures r.Ok? ==> r.value == StoreVolume(p, v)
  {
    if v < 0 || v > 127 then Err(InvalidVolume) else Ok(StoreVolume(p, v))
  }

  // ---------------------------------------------------------------- pan

  /** `pan`: decode the first ctrl-10 controller, reading 64 (centre) without one. */
  function Pan(p: Part): (r: real)
    ensures -1.0 <= r
    ensures var sel := Select(p.channel, ControllerQ(PanController));
            r == Decode(if |sel| == 0 then Centre else sel[0].value)
    ensures Select(p.channel, ControllerQ(PanController)) == [] ==> r == 0.0
    ensures var sel := Select(p.channel, ControllerQ(PanController));
            |sel| > 0 && 1 <= sel[0].value <= 127 ==> r <= 1.0 && Encode(r) == sel[0].value
  {
    match Lookup(p.channel, ControllerQ(PanController))
    case None => Decode(Centre)
    case Some(c) =>
      if 1 <= c.value <= 127 then DecodeThenEncode(c.value); Decode(c.value)
      else Decode(c.value)
  }

  /** The storing half of `pan=`, for a value already in range. */
  function StorePan(p: Part, v: PanValue): (r: Part)
    ensures r == p.(channel := r.channel)
    ensures Reads(r) == Reads(p).(pan := Pan(r))
    ensures v - 1.0 / Steps < Pan(r) <= v
    ensures v == -1.0 || v == 0.0 || v == 1.0 ==> Pan(r) == v
    ensures Select(r.channel, ControllerQ(PanController))
         == [ControllerElem(PanController, Encode(v))] + Tail(Select(p.channel, ControllerQ(PanController)))
    ensures Others(r.channel, ControllerQ(PanController)) == Others(p.channel, ControllerQ(PanController))
    ensures NonMixer(r.channel) == NonMixer(p.channel)
    ensures forall q :: Single(p.channel, q) ==> Single(r.channel, q)
  {
    EncodeThenDecode(v);
    ExactPositions();
    var ch := Put(p.channel, ControllerQ(PanController), ControllerElem(PanController, Encode(v)));
    NonMixerThroughOthers(p.channel, ControllerQ(PanController));
    NonMixerThroughOthers(ch, ControllerQ(PanController));
    SameReads(p.(channel := ch), p, ControllerQ(PanController));
    p.(channel := ch)
  }

  /** `pan=`: refuse values outside -1..1 before touching anything. */
  function SetPan(p: Part, v: real): (r: Result<Part>)
    ensures r.Err? <==> v < -1.0 || v > 1.0
    ensures r.Err? ==> r.error == InvalidPan
    ensures r.Ok? ==> r.value == p.(channel := r.value.channel)
    ensures r.Ok? ==> Reads(r.value) == Reads(p).(pan := Pan(r.value))
    ensures r.Ok? ==> v - 1.0 / Steps < Pan(r.value) <= v
    ensures r.Ok? ==> r.value == StorePan(p, v)
  {
    if v < -1.0 || v > 1.0 then Err(InvalidPan) else Ok(StorePan(p, v))
  }

  // ---------------------------------------------------------------- flags, as laws

  /** `mute!` is idempotent. */
  lemma MuteTwice(p: Part)
    ensures Mute(Mute(p)) == Mute(p)
  {
    PutTwice(p.channel, MuteQ, MuteElem("1"));
  }

  /** `solo!` is idempotent. */
  lemma SoloTwice(p: Part)
    ensures Solo(Solo(p)) == Solo(p)
  {
    PutTwice(p.channel, SoloQ, SoloElem("1"));
  }

  /** `unmute!` is idempotent on a channel with at most one `mute` child. */
  lemma UnmuteTwice(p: Part)
    requires Single(p.channel, MuteQ)
    ensures Unmute(Unmute(p)) == Unmute(p)
  {
    assert Select(Unmute(p).channel, MuteQ) == [];
  }

  /** `unsolo!` is idempotent on a channel with at most one `solo` child. */
  lemma UnsoloTwice(p: Part)
    requires Single(p.channel, SoloQ)
    ensures Unsolo(Unsolo(p)) == Unsolo(p)
  {
    assert Select(Unsolo(p).channel, SoloQ) == [];
  }

  /** With two `mute` children `unmute!` removes only the first, so the part
      still reads as muted: the single-child assumption above is needed. */
  lemma UnmuteLeavesSecondMute()
    ensures var p := Part(None, [], None, [MuteElem("1"), MuteElem("1")]);
            Muted(p) && Muted(Unmute(p))
  {
    var p := Part(None, [], None, [MuteElem("1"), MuteElem("1")]);
    assert Select(p.channel, MuteQ) == [MuteElem("1"), MuteElem("1")];
  }

  /** A `mute` child reading "0" is not a mute; `unmute!` still deletes it,
      so the document changes while every read stays the same. */
  lemma UnmuteOfZeroMute(p: Part)
    requires Select(p.channel, MuteQ) == [MuteElem("0")]
    ensures !Muted(p)
    ensures Reads(Unmute(p)) == Reads(p)
    ensures Unmute(p) != p
  {
    var r := Unmute(p);
    assert |Select(r.channel, MuteQ)| == 0;
  }

  // ---------------------------------------------------------------- identity

  /** The regex `^voice\.` of `vocal?`. */
  const VoicePrefix: string := "voice."

  predicate StartsWith(s: string, prefix: string)
  {
    |prefix| <= |s| && s[..|prefix|] == prefix
  }

  /** A Ruby `^` anchor: the start of the string or just after a newline. */
  ghost predicate VoiceLineAt(s: string, k: int)
  {
    0 <= k <= |s| && (k == 0 || s[k - 1] == '\n') && StartsWith(s[k..], VoicePrefix)
  }

  /** Scan `s` for a line beginning with `voice.`; `atLineStart` says whether
      position 0 of `s` is at a line start. */
  function VoiceLineFrom(s: string, atLineStart: bool): bool
    decreases |s|
  {
    (atLineStart && StartsWith(s, VoicePrefix))
    || (|s| > 0 && VoiceLineFrom(s[1..], s[0] == '\n'))
  }

  lemma {:induction false} VoiceLineFromIff(s: string, k: nat)
    requires k <= |s|
    ensures VoiceLineFrom(s[k..], k == 0 || s[k - 1] == '\n')
        <==> exists j :: k <= j <= |s| && VoiceLineAt(s, j)
    decreases |s| - k
  {
    var t := s[k..];
    var anchored := k == 0 || s[k - 1] == '\n';
    if k < |s| {
      assert t[1..] == s[k + 1..];
      assert t[0] == s[k];
      VoiceLineFromIff(s, k + 1);
      if anchored && StartsWith(t, VoicePrefix) {
        assert VoiceLineAt(s, k);
      }
      if exists j :: k <= j <= |s| && VoiceLineAt(s, j) {
        var j :| k <= j <= |s| && VoiceLineAt(s, j);
        if j > k {
          assert k + 1 <= j <= |s| && VoiceLineAt(s, j);
        } else {
          assert anchored && StartsWith(t, VoicePrefix);
        }
      }
    } else {
      assert |VoicePrefix| == 6;
      assert !StartsWith(s[k..], VoicePrefix);
      assert !VoiceLineAt(s, k);
    }
  }

  /** `vocal?`: the instrument id has a line starting `voice.`; no id, not vocal. */
  predicate IsVocal(p: Part)
    ensures IsVocal(p) <==> p.instrumentId.Some?
                            && exists k :: VoiceLineAt(p.instrumentId.value, k)
  {
    match p.instrumentId
    case None => false
    case Some(id) =>
      VoiceLineFromIff(id, 0);
      assert id[0..] == id;
      VoiceLineFrom(id, true)
  }

  /** The score staves whose id is one of `ids`, in document order. */
  function OwnedStaves(staves: seq<Staff>, ids: seq<string>): (r: seq<Staff>)
    ensures forall t :: t in r <==> t in staves && t.id in ids
  {
    if |staves| == 0 then []
    else (if staves[0].id in ids then [staves[0]] else []) + OwnedStaves(staves[1..], ids)
  }

  /** `empty?`: no score staff owned by the part (matched by id) holds a note;
      true when the part owns none. */
  predicate IsEmpty(p: Part, staves: seq<Staff>)
    ensures IsEmpty(p, staves) <==>
              forall k :: 0 <= k < |staves| && staves[k].id in p.staffIds ==> !staves[k].hasNote
  {
    var owned := OwnedStaves(staves, p.staffIds);
    forall t :: t in owned ==> !t.hasNote
  }

  /** `name`: the `trackName` text; a part without one fails. */
  function Name(p: Part): (r: Result<string>)
    ensures r.Ok? <==> p.trackName.Some?
    ensures r.Ok? ==> r.value == p.trackName.value
    ensures r.Err? ==> r.error == MissingTrackName
  {
    match p.trackName
    case None => Err(MissingTrackName)
    case Some(n) => Ok(n)
  }
}

=== FILE: wrappers.dfy ===
/**
 * Option and Result for the lookups and the failures of the score transformer.
 * The Ruby code signals every failure by raising; here a failing step returns
 * `Err` and leaves its input untouched.
 */
module Wrappers {

  /** A lookup that may find nothing (a `nil` from `at_xpath`). */
  datatype Option<+T> = None | Some(value: T)

  /** The failures a part accessor can raise. */
  datatype Error =
    | InvalidVolume     // volume assignment outside 0..127
    | InvalidPan        // pan assignment outside -1..1
    | MissingTrackName  // the part has no `trackName` child

  datatype Result<+T> = Ok(value: T) | Err(error: Error)

  /** The first element of a sequence, if there is one. */
  function Head<T>(s: seq<T>): Option<T>
  {
    if |s| == 0 then None else Some(s[0])
  }

  /** Everything after the first element (empty for the empty sequence). */
  function Tail<T>(s: seq<T>): seq<T>
  {
    if |s| == 0 then [] else s[1..]
  }
}
